=== FILE: README.md ===
# Random tours and gene-set replenishment for a TSP genetic search

This project models the core of a genetic-algorithm solver for the
travelling salesman problem. A *gene* is a closed tour over the nodes
`1..N` of an `N`-row distance matrix, and the *gene set* is the population
of genes. The model covers two operations.

- **Gene-set construction** (`GeneSet.__init__`). Each gene starts as
  `[start_node]`. Random draws `randint(1, N)` are then offered one by one:
  a draw already in the gene is rejected, and any other draw is appended.
  This stops when the gene holds `N` nodes. The start node is appended once
  more to close the tour. Genes are built until there are `num_gene` of
  them. Module `Tours`, file `tours.dfy`.
- **Replenishment** (`TSP_basic.introduce_new_gene`). The gene list is
  sorted, and `save_index = int(len * save_rate)` is computed. Then
  `set_random_gene(i)` is called for every index from `save_index` to the
  end, so only the elite prefix keeps its place. Module `Replenishment`,
  file `replenishment.dfy`. It relies on module `ListOrder`
  (`list_order.dfy`), which models Python's ordering of lists of integers
  and `list.sort()`.

Randomness is an explicit sequence of draws, each in `1..N`, read from a
position onward. Every property therefore holds for every possible run of
the random source. When the draws run out before a gene is full, the
result is `Err(DrawsExhausted)`; Python would keep drawing. An empty
matrix (`N = 0`) with `num_gene > 0` gives `Err(EmptyRange)`, because
`randint(1, 0)` raises.

`set_random_gene` has no definition in the repository, so it is a
parameter: a function from the index to the gene written there. Because
each index is called at most once, in increasing order, such a function
describes any sequence of writes. `AssignNewGenes` reads a call as the
list assignment `gene_set[i] = ...`, with Python's negative indexing.
`ReplenishFromDraws` builds the assigned genes as the constructor builds
them, one gene per call.

Behaviour of the code worth knowing:

- **Sort order.** The sort is Python's list order on the node sequences,
  not ascending tour cost. No cost is computed anywhere in the modelled
  code.
- **`save_rate` is not clamped.** A rate above 1 gives an index at or
  past the end, so nothing is replaced. A negative rate gives a negative
  index only when `len * save_rate <= -1`. A product between -1 and 0
  truncates to 0. With a negative index there are more calls than genes.
  When every call is a list assignment, an index `i` in `-len..-1` writes
  position `len + i`, and a later call overwrites that position. An index
  below `-len` raises `IndexError` at the first call.
- **Start node out of range.** A start node outside `1..N` is not
  rejected. The constructor then yields a closed walk that misses one
  node (`WalkMissesNode`). Only a start node in range yields a real tour
  (`IsTour`).
- **Construction can run forever.** The inner loop never ends if the
  random source never produces some node. The model reports this as
  running out of draws.

## Model

| member | source | states |
|---|---|---|
| Tours.Offer | TSP_model/geneset.py:17-18 | A draw is appended exactly when it is not yet in the gene. The old entries stay in place, and the draw is in the result. The length grows by one iff the draw was new, and distinctness is preserved. |
| Tours.Fill | TSP_model/geneset.py:14-18 | A successful inner loop leaves a gene of exactly `N` entries. It resumes at a draw position between its starting position and the end of the draws. Its only failure is running out of draws. |
| Tours.FillKeepsPrefix | TSP_model/geneset.py:14-18 | The inner loop only appends: the gene it started from is a prefix of the finished gene. |
| Tours.FillKeepsDistinct | TSP_model/geneset.py:14-18 | The inner loop never introduces a repeated node. |
| Tours.FillAppendsNodes | TSP_model/geneset.py:14-18 | Every appended entry is a node in `1..N`, the range of `randint(1, N)`. |
| Tours.FillElems | TSP_model/geneset.py:14-18 | The finished gene holds exactly the starting entries plus the draws consumed. |
| Tours.FillCompletes | TSP_model/geneset.py:14-18 | If every missing node occurs among the remaining draws, the inner loop terminates with a full gene. |
| Tours.FillLoop | TSP_model/geneset.py:14-18 | The imperative inner loop computes the same result as the recursive description, and a finished gene has `N` entries. |
| Tours.NewGene | TSP_model/geneset.py:13-20 | One constructed gene is a closed walk: `N + 1` entries, the start node at both ends, and distinct entries before the closing one. It is a tour when the start node is in range. It fails with `EmptyRange` iff `N = 0`, and otherwise fails only by running out of draws. |
| Tours.NewGeneCompletes | TSP_model/geneset.py:13-20 | Construction succeeds whenever every node other than the start occurs among the draws. |
| Tours.NewGeneNeedsEveryNode | TSP_model/geneset.py:13-20 | When it succeeds with an in-range start, every other node occurred among the draws it consumed, so that condition is also necessary. |
| Tours.BuildGene | TSP_model/geneset.py:13-20 | The imperative construction of one gene agrees with `NewGene` and yields a closed walk. |
| Tours.NewGenesCompose | TSP_model/geneset.py:12-21 | Building `a + b` genes is building `a` genes, then `b` more from the first draw left unused. A failure among the first `a` ends the whole build. |
| Tours.NewGenes | TSP_model/geneset.py:12-21 | A successful build of `count` genes yields exactly `count` closed walks, all tours when the start is in range. Building no genes succeeds without drawing. With `count > 0` an empty matrix fails with `EmptyRange`. On a non-empty matrix the only failure is running out of draws. |
| Tours.GeneSet | TSP_model/geneset.py:12-21 | The constructor yields `max(num_gene, 0)` closed walks. A non-positive `num_gene` yields the empty set without drawing. An empty matrix with `num_gene > 0` fails with `EmptyRange`, and that is the only error it raises. On a non-empty matrix the only failure is running out of draws. |
| Tours.BuildGeneSet | TSP_model/geneset.py:12-21 | The imperative outer loop agrees with `GeneSet`, and every gene it appends is a closed walk. |
| Tours.TourVisitsEveryNode | TSP_model/geneset.py:13-20 | In a tour, every node occurs among the first `N` entries. Every non-start node occurs in the interior, and exactly once. The start node does not occur in the interior. |
| Tours.WalkMissesNode | TSP_model/geneset.py:13-20 | With a start node outside `1..N`, a constructed walk holds only `N - 1` nodes and misses some node. |
| ListOrder.LexLeIsFirstDifference | TSP_model/model.py:13 | Python's entry-by-entry list comparison is the same as "a prefix, or smaller at the first difference". |
| ListOrder.Sort | TSP_model/model.py:13 | The sorted gene list is a permutation of the input, in non-decreasing list order. |
| ListOrder.SortedSplit | TSP_model/model.py:13-14 | Cutting a sorted list keeps all genes, keeps the front sorted, and puts every front gene before every back gene. |
| ListOrder.SortedPermutationUnique | TSP_model/model.py:13 | Two sorted permutations of the same list are equal, so any correct sort gives the modelled result. |
| ListOrder.SortIdempotent | TSP_model/model.py:13 | Sorting twice is sorting once, and a sorted list is left unchanged. |
| Replenishment.Trunc | TSP_model/model.py:14 | `int()` truncates toward zero, with floor bounds for positive arguments and ceiling bounds for negative ones. |
| Replenishment.SaveIndex | TSP_model/model.py:14 | The save index is non-negative for a non-negative rate and non-positive for a non-positive rate. It is negative exactly when `len * save_rate <= -1`. It is at most `len` for a rate of at most 1, and at least `len` for a rate of at least 1. Rate 0 gives 0 and rate 1 gives `len`. |
| Replenishment.SaveIndexTruncatesProduct | TSP_model/model.py:14 | The save index is the truncation of the product `len * save_rate`. |
| Replenishment.IntroduceNewGene | TSP_model/model.py:13-16 | The loop keeps the length. Every index from the save index up is written by `set_random_gene`, and the elite prefix holds the sorted genes. The call list contains each such index, only such indices, in strictly ascending order, and so each exactly once. |
| Replenishment.AssignNewGenes | TSP_model/model.py:13-16 | With each call assigning to `gene_set[i]` under Python's indexing, the result is the reference description whenever the save index is at least `-len`. Writes at negative indices are all overwritten later. Below `-len` the result is the `IndexError` outcome. |
| Replenishment.EliteIsSmallest | TSP_model/model.py:13-16 | The kept genes together with the discarded sorted suffix are the old gene set. The kept genes are sorted, and each precedes every discarded gene. |
| Replenishment.ReplenishedKeepsElite | TSP_model/model.py:13-16 | The gene list keeps its length. Every kept position holds the sorted gene, and every other position holds what `set_random_gene` wrote there. |
| Replenishment.FullRateKeepsAll | TSP_model/model.py:14-16 | A rate of at least 1 leaves the sorted list and makes no call. |
| Replenishment.ZeroRateReplacesAll | TSP_model/model.py:14-16 | A rate of at most 0 replaces every gene. Rate 0 calls every index `0..len-1` once, in order. |
| Replenishment.ReplenishKeepsTours | TSP_model/model.py:13-16 | If the old genes are tours and `set_random_gene` writes tours at the replaced indices, all genes are tours afterwards. |
| Replenishment.ReplenishFromDraws | TSP_model/model.py:13-16 | One gene is built per call, as the constructor builds them, from one stream of draws. A save index below `-len` always fails. Otherwise the length is kept and the elite keeps its place. Every position `j` from the save index up holds the gene built by the call for `j`, i.e. the `(j - save_index)`-th. That gene is a closed walk for every start node. From `-len` up, it succeeds exactly when building one gene per call succeeds, and otherwise fails with that build's error. Below `-len` the error is `IndexOutOfRange` exactly when the first gene could be built. Apart from `IndexOutOfRange`, the only errors are `EmptyRange` for an empty matrix and running out of draws otherwise. Failure happens only when something is replaced. Tours stay tours when the start node is in range. |

## Left out

- Reading the distance matrix from a file (geneset.py lines 6-9): only its row count `N` matters for construction, so `N` is a parameter.
- `len(self.geneset)` at TSP_model/model.py line 14: `GeneSet` defines no `__len__`, so Python raises `TypeError` there. The model takes the length of the gene list, which is what the line evidently means.
- `set_random_gene`: it is not defined in the repository, so it is a parameter (see above).
- Replenishment.IntroduceNewGene: a call with a negative index (from `len * save_rate <= -1`) is recorded but does not write a gene, because what it does depends on the undefined `set_random_gene`. `AssignNewGenes` covers the reading in which every call is a list assignment.
- Replenishment.AssignNewGenes and Replenishment.ReplenishFromDraws: when replenishment fails (`IndexOutOfRange`, `EmptyRange` or exhausted draws), Python has already sorted the list in place at TSP_model/model.py line 13. The model returns only the error, not the sorted list.
- `breed` (TSP_model/model.py lines 18-19): an unfinished stub with no behaviour to model. Selection, mutation, tour cost and the generation loop do not occur in the modelled code.
- Floating-point rounding: `len * save_rate` is computed exactly on reals before truncation. An IEEE product that rounds across an integer could differ by one. Non-finite rates are not representable as reals. In Python, `int()` of an infinite product raises `OverflowError`. `int()` of a NaN product raises `ValueError`; that includes `0 * inf`, which is NaN.
- The distribution of `randint` and the probability of termination: only which draws occur matters, not how likely they are.
- Non-termination of the inner loop is represented by a finite draw sequence running out (`DrawsExhausted`).
- File handles, the `data_path` and `num_gene` attributes, and the `os`/`random` modules: these are I/O and library state.

=== FILE: list_order.dfy ===
/**
  Python's built-in ordering of lists of integers and the in-place
  `list.sort()` that the gene set relies on.

  Python compares two lists entry by entry: the first differing entry
  decides, and when one list is a prefix of the other the shorter one comes
  first. A gene set is a list of such lists, so sorting it orders the genes
  by their node sequences, not by tour cost.
 */
module ListOrder {

  /**
    `a <= b` on Python lists of integers, one entry at a time.
   */
  predicate LexLe(a: seq<int>, b: seq<int>)
    decreases |a|
  {
    |a| == 0 || (|b| > 0 && (a[0] < b[0] || (a[0] == b[0] && LexLe(a[1..], b[1..]))))
  }

  /**
    The same order stated without recursion: `a` is a prefix of `b`, or the
    two first differ at some position where `a` holds the smaller entry.
   */
  ghost predicate FirstDifferenceLe(a: seq<int>, b: seq<int>) {
    || (|a| <= |b| && a == b[..|a|])
    || (exists i :: 0 <= i < |a| && i < |b| && a[..i] == b[..i] && a[i] < b[i])
  }

  /** The recursive order implies the first-difference characterisation. */
  lemma {:induction false} LexLeToFirstDifference(a: seq<int>, b: seq<int>)
    requires LexLe(a, b)
    ensures FirstDifferenceLe(a, b)
    decreases |a|
  {
    if |a| == 0 {
      assert a == b[..0];
    } else if a[0] < b[0] {
      assert a[..0] == b[..0];
    } else {
      var a', b' := a[1..], b[1..];
      LexLeToFirstDifference(a', b');
      if |a'| <= |b'| && a' == b'[..|a'|] {
        assert a == [a[0]] + a';
        assert b[..|a|] == [b[0]] + b'[..|a'|];
      } else {
        var i :| 0 <= i < |a'| && i < |b'| && a'[..i] == b'[..i] && a'[i] < b'[i];
        assert a[..i + 1] == [a[0]] + a'[..i];
        assert b[..i + 1] == [b[0]] + b'[..i];
      }
    }
  }

  /** The first-difference characterisation implies the recursive order. */
  lemma {:induction false} FirstDifferenceToLexLe(a: seq<int>, b: seq<int>)
    requires FirstDifferenceLe(a, b)
    ensures LexLe(a, b)
    decreases |a|
  {
    if |a| > 0 {
      assert |b| > 0;
      if |a| <= |b| && a == b[..|a|] {
        assert a[0] == b[..|a|][0];
        assert a[1..] == b[1..][..|a[1..]|];
        FirstDifferenceToLexLe(a[1..], b[1..]);
      } else {
        var i :| 0 <= i < |a| && i < |b| && a[..i] == b[..i] && a[i] < b[i];
        if i > 0 {
          assert a[0] == a[..i][0] == b[..i][0] == b[0];
          assert a[1..][..i - 1] == a[..i][1..];
          assert b[1..][..i - 1] == b[..i][1..];
          assert a[1..][i - 1] == a[i] && b[1..][i - 1] == b[i];
          FirstDifferenceToLexLe(a[1..], b[1..]);
        }
      }
    }
  }

  /** The recursive order agrees with the first-difference characterisation, both ways. */
  lemma LexLeIsFirstDifference(a: seq<int>, b: seq<int>)
    ensures LexLe(a, b) <==> FirstDifferenceLe(a, b)
  {
    if LexLe(a, b) {
      LexLeToFirstDifference(a, b);
    }
    if FirstDifferenceLe(a, b) {
      FirstDifferenceToLexLe(a, b);
    }
  }

  lemma {:induction false} LexLeReflexive(a: seq<int>)
    ensures LexLe(a, a)
    decreases |a|
  {
    if |a| > 0 {
      LexLeReflexive(a[1..]);
    }
  }

  lemma {:induction false} LexLeAntisymmetric(a: seq<int>, b: seq<int>)
    requires LexLe(a, b) && LexLe(b, a)
    ensures a == b
    decreases |a|
  {
    if |a| > 0 {
      LexLeAntisymmetric(a[1..], b[1..]);
      assert a == [a[0]] + a[1..] && b == [b[0]] + b[1..];
    }
  }

  lemma {:induction false} LexLeTransitive(a: seq<int>, b: seq<int>, c: seq<int>)
    requires LexLe(a, b) && LexLe(b, c)
    ensures LexLe(a, c)
    decreases |a|
  {
    if |a| > 0 && a[0] == b[0] && b[0] == c[0] {
      LexLeTransitive(a[1..], b[1..], c[1..]);
    }
  }

  lemma {:induction false} LexLeTotal(a: seq<int>, b: seq<int>)
    ensures LexLe(a, b) || LexLe(b, a)
    decreases |a|
  {
    if |a| > 0 && |b| > 0 && a[0] == b[0] {
      LexLeTotal(a[1..], b[1..]);
    }
  }

  /** Non-decreasing in Python's list order. */
  predicate Sorted(s: seq<seq<int>>) {
    forall i, j :: 0 <= i < j < |s| ==> LexLe(s[i], s[j])
  }

  /** A sorted sequence stays sorted below a lower bound of all its entries. */
  lemma ConsSorted(h: seq<int>, t: seq<seq<int>>)
    requires Sorted(t)
    requires forall y :: y in t ==> LexLe(h, y)
    ensures Sorted([h] + t)
  {
    var s := [h] + t;
    forall i, j | 0 <= i < j < |s|
      ensures LexLe(s[i], s[j])
    {
      if i > 0 {
        assert s[i] == t[i - 1] && s[j] == t[j - 1];
      } else {
        assert s[j] in t;
      }
    }
  }

  /** Inserts one gene into a sorted gene list at its place. */
  function Insert(x: seq<int>, s: seq<seq<int>>): (r: seq<seq<int>>)
    requires Sorted(s)
    ensures Sorted(r)
    ensures multiset(r) == multiset(s) + multiset{x}
    decreases |s|
  {
    if |s| == 0 then [x]
    else if LexLe(x, s[0]) then
      assert forall y :: y in s ==> LexLe(x, y) by {
        forall y | y in s
          ensures LexLe(x, y)
        {
          var k :| 0 <= k < |s| && s[k] == y;
          if k > 0 {
            LexLeTransitive(x, s[0], y);
          }
        }
      }
      ConsSorted(x, s);
      [x] + s
    else
      var t := Insert(x, s[1..]);
      assert s == [s[0]] + s[1..];
      assert forall y :: y in t ==> LexLe(s[0], y) by {
        forall y | y in t
          ensures LexLe(s[0], y)
        {
          assert y in multiset(t);
          if y == x {
            LexLeTotal(x, s[0]);
          } else {
            assert y in multiset(s[1..]);
            var k :| 0 <= k < |s[1..]| && s[1..][k] == y;
            assert s[k + 1] == y;
          }
        }
      }
      ConsSorted(s[0], t);
      [s[0]] + t
  }

  /**
    The sorted gene list: the model of `list.sort()` on a list of genes.
   */
  function Sort(s: seq<seq<int>>): (r: seq<seq<int>>)
    ensures Sorted(r)
    ensures multiset(r) == multiset(s)
    ensures |r| == |s|
    decreases |s|
  {
    if |s| == 0 then []
    else
      assert s == [s[0]] + s[1..];
      Insert(s[0], Sort(s[1..]))
  }

  /**
    Cutting a sorted list in two loses nothing, keeps the front in order,
    and leaves every front entry before every back entry.
   */
  lemma SortedSplit(s: seq<seq<int>>, m: nat)
    requires Sorted(s) && m <= |s|
    ensures multiset(s[..m]) + multiset(s[m..]) == multiset(s)
    ensures Sorted(s[..m])
    ensures forall i, j :: 0 <= i < m && 0 <= j < |s| - m ==> LexLe(s[..m][i], s[m..][j])
  {
    assert s == s[..m] + s[m..];
    forall i, j | 0 <= i < m && 0 <= j < |s| - m
      ensures LexLe(s[..m][i], s[m..][j])
    {
      assert s[..m][i] == s[i] && s[m..][j] == s[m + j];
    }
    forall i, j | 0 <= i < j < m
      ensures LexLe(s[..m][i], s[..m][j])
    {
      assert s[..m][i] == s[i] && s[..m][j] == s[j];
    }
  }

  /** The head of a sorted list precedes every entry of the list. */
  lemma SortedHeadFirst(a: seq<seq<int>>, x: seq<int>)
    requires Sorted(a)
    requires x in multiset(a)
    ensures LexLe(a[0], x)
  {
    var k :| 0 <= k < |a| && a[k] == x;
    if k == 0 {
      LexLeReflexive(x);
    }
  }

  /** The tail of a sorted list is sorted. */
  lemma SortedTail(a: seq<seq<int>>)
    requires Sorted(a) && |a| > 0
    ensures Sorted(a[1..])
  {
    forall i, j | 0 <= i < j < |a[1..]|
      ensures LexLe(a[1..][i], a[1..][j])
    {
      assert a[1..][i] == a[i + 1] && a[1..][j] == a[j + 1];
    }
  }

  /** Removing the head removes one copy of it from the multiset. */
  lemma TailMultiset(a: seq<seq<int>>)
    requires |a| > 0
    ensures multiset(a[1..]) == multiset(a) - multiset{a[0]}
  {
    assert a == [a[0]] + a[1..];
  }

  /**
    There is only one sorted arrangement of a gene list: whichever algorithm
    Python's sort uses, its result is `Sort(s)`.
   */
  lemma {:induction false} SortedPermutationUnique(a: seq<seq<int>>, b: seq<seq<int>>)
    requires Sorted(a) && Sorted(b)
    requires multiset(a) == multiset(b)
    ensures a == b
    decreases |a|
  {
    if |a| == 0 {
      assert |multiset(b)| == 0;
    } else {
      assert |b| == |multiset(b)| == |a|;
      SortedHeadFirst(b, a[0]);
      SortedHeadFirst(a, b[0]);
      LexLeAntisymmetric(a[0], b[0]);
      assert multiset(a[1..]) == multiset(b[1..]) by {
        TailMultiset(a);
        TailMultiset(b);
      }
      SortedTail(a);
      SortedTail(b);
      SortedPermutationUnique(a[1..], b[1..]);
      assert a == [a[0]] + a[1..] && b == [b[0]] + b[1..];
    }
  }

  /** Sorting an already sorted gene list changes nothing, so a second sort is idle. */
  lemma SortIdempotent(s: seq<seq<int>>)
    ensures Sort(Sort(s)) == Sort(s)
    ensures Sorted(s) ==> Sort(s) == s
  {
    SortedPermutationUnique(Sort(Sort(s)), Sort(s));
    if Sorted(s) {
      SortedPermutationUnique(Sort(s), s);
    }
  }
}

=== FILE: replenishment.dfy ===
/**
  Replenishment of the gene set (`introduce_new_gene`): the gene list is
  sorted, the first `save_index = int(len * save_rate)` genes are kept, and
  every index from `save_index` up to the end is handed to
  `set_random_gene`, which writes a fresh gene there.

  `set_random_gene` has no definition in the repository, so it is a
  parameter here: `writer(i)` is the gene it writes at index `i`. Because
  the calls go through the indices in increasing order, each at most once,
  a function of the index describes any sequence of writes, random or not.
  The last part of the module builds the fresh genes the way the
  constructor builds its genes.
 */
module Replenishment {
  import opened Tours
  import opened ListOrder

  /** Python's `int()` on a number: truncation toward zero. */
  function Trunc(x: real): (r: int)
    ensures 0.0 <= x ==> 0 <= r && r as real <= x < r as real + 1.0
    ensures x < 0.0 ==> r <= 0 && r as real - 1.0 < x <= r as real
  {
    if x >= 0.0 then x.Floor else -((-x).Floor)
  }

  /**
    `len * rate`, written as repeated addition so that its bounds are proved
    by induction on the count.
   */
  function Scale(n: nat, rate: real): (x: real)
    ensures 0.0 <= rate ==> 0.0 <= x
    ensures rate <= 0.0 ==> x <= 0.0
    ensures 0.0 <= rate <= 1.0 ==> x <= n as real
    ensures 1.0 <= rate ==> n as real <= x
    ensures rate == 0.0 ==> x == 0.0
    ensures rate == 1.0 ==> x == n as real
  {
    if n == 0 then 0.0 else Scale(n - 1, rate) + rate
  }

  /** Repeated addition is the product `len * rate`. */
  lemma {:induction false} ScaleIsProduct(n: nat, rate: real)
    ensures Scale(n, rate) == n as real * rate
  {
    if n > 0 {
      ScaleIsProduct(n - 1, rate);
      assert n as real * rate == (n - 1) as real * rate + rate;
    }
  }

  /**
    `save_index = int(len(gene_set) * save_rate)`, rounded toward zero. No
    clamping takes place: a rate above 1 gives an index at or past the end,
    and a negative rate gives a negative index exactly when
    `len * save_rate <= -1` (a product between -1 and 0 truncates to 0).
   */
  function SaveIndex(n: nat, saveRate: real): (k: int)
    ensures 0.0 <= saveRate ==> 0 <= k && k as real <= Scale(n, saveRate) < k as real + 1.0
    ensures saveRate <= 0.0 ==> k <= 0
    ensures k < 0 <==> Scale(n, saveRate) <= -1.0
    ensures 0.0 <= saveRate <= 1.0 ==> k <= n
    ensures 1.0 <= saveRate ==> n <= k
    ensures saveRate == 0.0 ==> k == 0
    ensures saveRate == 1.0 ==> k == n
  {
    Trunc(Scale(n, saveRate))
  }

  /** The save index is Python's `int()` of the product `len * rate`. */
  lemma SaveIndexTruncatesProduct(n: nat, saveRate: real)
    ensures SaveIndex(n, saveRate) == Trunc(n as real * saveRate)
  {
    ScaleIsProduct(n, saveRate);
  }

  /** The number of genes that keep their place: the save index cut to `0..n`. */
  function Kept(n: nat, saveRate: real): (m: nat)
    ensures SaveIndex(n, saveRate) <= 0 ==> m == 0
    ensures 0 <= SaveIndex(n, saveRate) <= n ==> m == SaveIndex(n, saveRate)
    ensures n <= SaveIndex(n, saveRate) ==> m == n
  {
    var k := SaveIndex(n, saveRate);
    if k < 0 then 0 else if k > n then n else k
  }

  /** How many indices `range(k, n)` holds. */
  function Remaining(k: int, n: nat): nat {
    if k < n then n - k else 0
  }

  /** How many indices `range(save_index, len)` holds: one call each. */
  function CallCount(n: nat, saveRate: real): nat {
    Remaining(SaveIndex(n, saveRate), n)
  }

  /**
    The gene list after replenishment, and the indices handed to
    `set_random_gene`, in call order.
   */
  datatype Replaced = Replaced(genes: seq<seq<int>>, calls: seq<int>)

  /**
    Reference description of replenishment: the sorted gene list overwritten
    from the save index up, with one call per overwritten index.
   */
  function Replenished(genes: seq<seq<int>>, saveRate: real, writer: int -> seq<int>): Replaced {
    Overwrite(Sort(genes), SaveIndex(|genes|, saveRate), writer)
  }

  /**
    The positional description for a given sorted list and save index `k`:
    position `j` keeps the sorted gene below `k` and holds `writer(j)` from
    `k` up; the calls are the indices from `k` up to the end.
   */
  function Overwrite(sorted: seq<seq<int>>, k: int, writer: int -> seq<int>): Replaced {
    Replaced(
      seq(|sorted|, j requires 0 <= j < |sorted| => if j < k then sorted[j] else writer(j)),
      seq(Remaining(k, |sorted|), t => k + t))
  }

  /**
    `introduce_new_gene`: sort, compute the save index, then call
    `set_random_gene` once for every index from the save index to the end,
    in increasing order. A call with a negative index (from a rate with
    `len * save_rate <= -1`) is recorded but writes nothing here;
    `AssignNewGenes` follows Python's list indexing for those calls.
   */
  method IntroduceNewGene(genes: seq<seq<int>>, saveRate: real, writer: int -> seq<int>)
    returns (r: Replaced)
    ensures r == Replenished(genes, saveRate, writer)
    ensures |r.genes| == |genes|
    ensures forall j :: 0 <= j < |genes| && SaveIndex(|genes|, saveRate) <= j ==> r.genes[j] == writer(j)
    ensures forall j :: SaveIndex(|genes|, saveRate) <= j < |genes| ==> j in r.calls
    ensures forall t :: 0 <= t < |r.calls| ==> SaveIndex(|genes|, saveRate) <= r.calls[t] < |genes|
    ensures forall s, t :: 0 <= s < t < |r.calls| ==> r.calls[s] < r.calls[t]
  {
    var geneSet := Sort(genes);
    ghost var sorted := geneSet;
    var saveIndex := SaveIndex(|genes|, saveRate);
    var calls: seq<int> := [];
    var i := saveIndex;
    while i < |genes|
      invariant saveIndex <= i
      invariant saveIndex <= |genes| ==> i <= |genes|
      invariant |geneSet| == |genes|
      invariant forall j :: 0 <= j < |genes| && j < saveIndex ==> geneSet[j] == sorted[j]
      invariant forall j :: 0 <= j < |genes| && saveIndex <= j < i ==> geneSet[j] == writer(j)
      invariant |calls| == i - saveIndex <= CallCount(|genes|, saveRate)
      invariant forall t :: 0 <= t < |calls| ==> calls[t] == saveIndex + t
      decreases |genes| - i
    {
      if 0 <= i {
        geneSet := geneSet[i := writer(i)];
      }
      calls := calls + [i];
      i := i + 1;
    }
    assert |calls| == CallCount(|genes|, saveRate);
    AssignedIsOverwrite(sorted, saveIndex, writer, geneSet, calls);
    forall j | saveIndex <= j < |genes|
      ensures j in calls
    {
      assert calls[j - saveIndex] == j;
    }
    r := Replaced(geneSet, calls);
  }

  /**
    `introduce_new_gene` with `set_random_gene(i)` performing the list
    assignment `gene_set[i] = writer(i)`, negative indices included. Python
    maps an index `-len <= i < 0` to position `len + i`; every such position
    is at or above the save index, so a later call rewrites it and the
    result is the reference description. An index below `-len` raises
    `IndexError` at the first call (the sort has already happened in place;
    the model returns only the error).
   */
  method AssignNewGenes(genes: seq<seq<int>>, saveRate: real, writer: int -> seq<int>)
    returns (r: Result<Replaced>)
    ensures -|genes| <= SaveIndex(|genes|, saveRate) ==> r == Ok(Replenished(genes, saveRate, writer))
    ensures SaveIndex(|genes|, saveRate) < -|genes| ==> r == Err(IndexOutOfRange)
  {
    var geneSet := Sort(genes);
    ghost var sorted := geneSet;
    var saveIndex := SaveIndex(|genes|, saveRate);
    if saveIndex < -|genes| {
      return Err(IndexOutOfRange);
    }
    var calls: seq<int> := [];
    var i := saveIndex;
    while i < |genes|
      invariant saveIndex <= i
      invariant saveIndex <= |genes| ==> i <= |genes|
      invariant |geneSet| == |genes|
      invariant forall j :: 0 <= j < |genes| && j < saveIndex ==> geneSet[j] == sorted[j]
      invariant forall j :: 0 <= j < |genes| && saveIndex <= j < i ==> geneSet[j] == writer(j)
      invariant |calls| == i - saveIndex <= CallCount(|genes|, saveRate)
      invariant forall t :: 0 <= t < |calls| ==> calls[t] == saveIndex + t
      decreases |genes| - i
    {
      var slot := if i < 0 then |genes| + i else i;
      geneSet := geneSet[slot := writer(i)];
      calls := calls + [i];
      i := i + 1;
    }
    assert |calls| == CallCount(|genes|, saveRate);
    AssignedIsOverwrite(sorted, saveIndex, writer, geneSet, calls);
    return Ok(Replaced(geneSet, calls));
  }

  /** A list and call record that agree with `Overwrite` position by position equal it. */
  lemma AssignedIsOverwrite(sorted: seq<seq<int>>, k: int, writer: int -> seq<int>,
                            geneSet: seq<seq<int>>, calls: seq<int>)
    requires |geneSet| == |sorted|
    requires forall j :: 0 <= j < |sorted| && j < k ==> geneSet[j] == sorted[j]
    requires forall j :: 0 <= j < |sorted| && k <= j ==> geneSet[j] == writer(j)
    requires |calls| == Remaining(k, |sorted|)
    requires forall t :: 0 <= t < |calls| ==> calls[t] == k + t
    ensures Replaced(geneSet, calls) == Overwrite(sorted, k, writer)
  {
    var spec := Overwrite(sorted, k, writer);
    assert geneSet == spec.genes;
    assert calls == spec.calls;
  }

  /**
    The kept prefix and the discarded suffix of the sorted list together make
    up the old gene set, the kept prefix is in order, and every kept gene
    precedes every discarded one: the elite is the `save_index` smallest
    genes in Python's list order.
   */
  lemma EliteIsSmallest(genes: seq<seq<int>>, saveRate: real, writer: int -> seq<int>)
    ensures var m := Kept(|genes|, saveRate);
      var kept := Replenished(genes, saveRate, writer).genes[..m];
      var dropped := Sort(genes)[m..];
      && multiset(kept) + multiset(dropped) == multiset(genes)
      && Sorted(kept)
      && (forall i, j :: 0 <= i < |kept| && 0 <= j < |dropped| ==> LexLe(kept[i], dropped[j]))
  {
    var m := Kept(|genes|, saveRate);
    var sorted := Sort(genes);
    var r := Replenished(genes, saveRate, writer);
    assert r.genes[..m] == sorted[..m] by {
      forall j | 0 <= j < m
        ensures r.genes[..m][j] == sorted[j]
      {
        assert r.genes[..m][j] == r.genes[j];
      }
    }
    SortedSplit(sorted, m);
  }

  /**
    Replenishment keeps the length, the kept positions hold the sorted
    genes, and every other position holds what `set_random_gene` wrote.
   */
  lemma ReplenishedKeepsElite(genes: seq<seq<int>>, saveRate: real, writer: int -> seq<int>)
    ensures var r := Replenished(genes, saveRate, writer);
      && |r.genes| == |genes|
      && (forall j :: 0 <= j < Kept(|genes|, saveRate) ==> r.genes[j] == Sort(genes)[j])
      && (forall j :: Kept(|genes|, saveRate) <= j < |genes| ==> r.genes[j] == writer(j))
  {
  }

  /** A replaced position holds what `set_random_gene` wrote there. */
  lemma ReplenishedAt(genes: seq<seq<int>>, saveRate: real, writer: int -> seq<int>, j: int)
    requires 0 <= j < |genes| && SaveIndex(|genes|, saveRate) <= j
    ensures Replenished(genes, saveRate, writer).genes[j] == writer(j)
  {
  }

  /** A save rate of at least 1 keeps the whole sorted list and calls nothing. */
  lemma FullRateKeepsAll(genes: seq<seq<int>>, saveRate: real, writer: int -> seq<int>)
    requires 1.0 <= saveRate
    ensures Replenished(genes, saveRate, writer) == Replaced(Sort(genes), [])
  {
    var r := Replenished(genes, saveRate, writer);
    assert r.genes == Sort(genes);
  }

  /**
    A save rate of at most 0 replaces every gene; for a rate of exactly 0 the
    calls are the indices `0 .. len - 1`, each once.
   */
  lemma ZeroRateReplacesAll(genes: seq<seq<int>>, saveRate: real, writer: int -> seq<int>)
    requires saveRate <= 0.0
    ensures var r := Replenished(genes, saveRate, writer);
      && (forall j :: 0 <= j < |genes| ==> r.genes[j] == writer(j))
      && (saveRate == 0.0 ==> |r.calls| == |genes| && forall t :: 0 <= t < |genes| ==> r.calls[t] == t)
  {
  }

  /**
    Replenishment keeps every gene a valid closed tour, provided the old
    genes are tours and `set_random_gene` writes tours at the indices it
    replaces.
   */
  lemma ReplenishKeepsTours(genes: seq<seq<int>>, saveRate: real, writer: int -> seq<int>,
                            start: int, n: nat)
    requires forall i :: 0 <= i < |genes| ==> IsTour(genes[i], start, n)
    requires forall i :: Kept(|genes|, saveRate) <= i < |genes| ==> IsTour(writer(i), start, n)
    ensures var r := Replenished(genes, saveRate, writer);
      forall i :: 0 <= i < |r.genes| ==> IsTour(r.genes[i], start, n)
  {
    var r := Replenished(genes, saveRate, writer);
    var sorted := Sort(genes);
    forall i | 0 <= i < |r.genes|
      ensures IsTour(r.genes[i], start, n)
    {
      if i < SaveIndex(|genes|, saveRate) {
        assert sorted[i] in multiset(genes);
        var j :| 0 <= j < |genes| && genes[j] == sorted[i];
      }
    }
  }

  /**
    `set_random_gene` backed by a list of ready-made genes: the call for
    index `k + t` writes the `t`-th of them. Indices outside that range are
    never called; they get the one-node list `[start]`.
   */
  function FromBuilt(built: seq<seq<int>>, k: int, start: int): (writer: int -> seq<int>)
  {
    i => if k <= i < k + |built| then built[i - k] else [start]
  }

  /** A ready-made gene is written unchanged at its index. */
  lemma FromBuiltAt(built: seq<seq<int>>, k: int, start: int, j: int)
    requires k <= j < k + |built|
    ensures FromBuilt(built, k, start)(j) == built[j - k]
  {
  }

  /** With one ready-made closed walk per call, each replaced position holds its walk. */
  lemma ReplenishFromBuilt(genes: seq<seq<int>>, saveRate: real, built: seq<seq<int>>, start: int, n: nat)
    requires |built| == CallCount(|genes|, saveRate)
    requires forall t :: 0 <= t < |built| ==> ClosedWalk(built[t], start, n)
    ensures var k := SaveIndex(|genes|, saveRate);
      var r := Replenished(genes, saveRate, FromBuilt(built, k, start));
      forall j :: 0 <= j < |genes| && k <= j ==> r.genes[j] == built[j - k] && ClosedWalk(r.genes[j], start, n)
  {
    var k := SaveIndex(|genes|, saveRate);
    var writer := FromBuilt(built, k, start);
    var r := Replenished(genes, saveRate, writer);
    forall j | 0 <= j < |genes| && k <= j
      ensures r.genes[j] == built[j - k] && ClosedWalk(r.genes[j], start, n)
    {
      ReplenishedAt(genes, saveRate, writer, j);
      FromBuiltAt(built, k, start, j);
    }
  }

  /** With one ready-made tour per call, tours stay tours. */
  lemma ReplenishFromBuiltTours(genes: seq<seq<int>>, saveRate: real, built: seq<seq<int>>, start: int, n: nat)
    requires |built| == CallCount(|genes|, saveRate)
    requires forall t :: 0 <= t < |built| ==> IsTour(built[t], start, n)
    requires forall i :: 0 <= i < |genes| ==> IsTour(genes[i], start, n)
    ensures var r := Replenished(genes, saveRate, FromBuilt(built, SaveIndex(|genes|, saveRate), start));
      forall i :: 0 <= i < |r.genes| ==> IsTour(r.genes[i], start, n)
  {
    var k := SaveIndex(|genes|, saveRate);
    var writer := FromBuilt(built, k, start);
    forall i | Kept(|genes|, saveRate) <= i < |genes|
      ensures IsTour(writer(i), start, n)
    {
      FromBuiltAt(built, k, start, i);
    }
    ReplenishKeepsTours(genes, saveRate, writer, start, n);
  }

  /**
    `introduce_new_gene` with `set_random_gene(i)` building a fresh gene as
    the constructor does and assigning it to `gene_set[i]`: one gene is built
    per call, in call order, from one shared stream of draws. When the save
    index lies below `-len`, the first call builds its gene and then its
    assignment raises. Otherwise the elite keeps its place, position `j`
    from the save index up holds the gene built by the call for `j` (a
    closed walk from the start node), and when the old genes are tours of a
    start node in range the result consists of tours again.
   */
  function ReplenishFromDraws(genes: seq<seq<int>>, saveRate: real, start: int, n: nat, draws: seq<int>)
    : (r: Result<Replaced>)
    requires IsDraws(draws, n)
    ensures r.Ok? ==> |r.value.genes| == |genes|
    ensures r.Ok? ==> forall j :: 0 <= j < Kept(|genes|, saveRate) ==> r.value.genes[j] == Sort(genes)[j]
    ensures r.Ok? ==> var k := SaveIndex(|genes|, saveRate);
              var made := NewGenes(start, n, CallCount(|genes|, saveRate), draws, 0);
              -|genes| <= k && made.Ok? && forall j :: 0 <= j < |genes| && k <= j ==>
                r.value.genes[j] == made.value.genes[j - k] && ClosedWalk(r.value.genes[j], start, n)
    ensures -|genes| <= SaveIndex(|genes|, saveRate) ==>
              var made := NewGenes(start, n, CallCount(|genes|, saveRate), draws, 0);
              (r.Ok? <==> made.Ok?) && (r.Err? ==> r == Err(made.error))
    ensures SaveIndex(|genes|, saveRate) < -|genes| ==>
              r.Err? && (r.error == IndexOutOfRange <==> NewGene(start, n, draws, 0).Ok?)
    ensures r.Err? && r.error != IndexOutOfRange ==> r.error == (if n == 0 then EmptyRange else DrawsExhausted)
    ensures r.Err? ==> Kept(|genes|, saveRate) < |genes|
    ensures Kept(|genes|, saveRate) < |genes| && n == 0 ==> r == Err(EmptyRange)
    ensures r.Ok? && IsNode(start, n) && (forall i :: 0 <= i < |genes| ==> IsTour(genes[i], start, n)) ==>
              forall i :: 0 <= i < |r.value.genes| ==> IsTour(r.value.genes[i], start, n)
  {
    var k := SaveIndex(|genes|, saveRate);
    if k < -|genes| then
      var first := NewGene(start, n, draws, 0);
      if first.Err? then Err(first.error) else Err(IndexOutOfRange)
    else
      var made := NewGenes(start, n, CallCount(|genes|, saveRate), draws, 0);
      if made.Err? then Err(made.error)
      else
        var built := made.value.genes;
        ReplenishedKeepsElite(genes, saveRate, FromBuilt(built, k, start));
        ReplenishFromBuilt(genes, saveRate, built, start, n);
        assert IsNode(start, n) && (forall i :: 0 <= i < |genes| ==> IsTour(genes[i], start, n)) ==>
          var r := Replenished(genes, saveRate, FromBuilt(built, k, start));
          forall i :: 0 <= i < |r.genes| ==> IsTour(r.genes[i], start, n)
        by {
          if IsNode(start, n) && (forall i :: 0 <= i < |genes| ==> IsTour(genes[i], start, n)) {
            ReplenishFromBuiltTours(genes, saveRate, built, start, n);
          }
        }
        Ok(Replenished(genes, saveRate, FromBuilt(built, k, start)))
  }
}

=== FILE: tours.dfy ===
/**
  Construction of random genes (closed tours) for the TSP genetic search.

  A gene is built from the start node by rejection sampling: draws from
  `1..N` are offered in turn, a draw already in the gene is rejected, any
  other draw is appended, until the gene holds `N` nodes; the start node is
  then appended again to close the tour. The random number source is an
  explicit sequence of draws, so every property below holds for every
  sequence of draws.
 */
module Tours {

  /** Why construction can fail in the model. */
  datatype Error =
    | EmptyRange      // `randint(1, 0)` raises when the matrix has no rows
    | DrawsExhausted  // the supplied draws ran out before the gene was full
    | IndexOutOfRange // a list assignment `l[i] = x` with `i < -len(l)` raises
                      // (replenishment only; construction never fails this way)

  datatype Result<T> = Ok(value: T) | Err(error: Error)

  /** A gene together with the position of the first draw not yet consumed. */
  datatype Drawn = Drawn(gene: seq<int>, next: nat)

  /** A gene set together with the position of the first draw not yet consumed. */
  datatype Built = Built(genes: seq<seq<int>>, next: nat)

  /** Nodes are the 1-based row numbers of an `n`-row distance matrix. */
  predicate IsNode(v: int, n: int) {
    1 <= v <= n
  }

  /** No value occurs twice. */
  predicate Distinct(s: seq<int>) {
    forall i, j :: 0 <= i < j < |s| ==> s[i] != s[j]
  }

  /** Every draw is a value `randint(1, n)` can return. */
  predicate IsDraws(draws: seq<int>, n: int) {
    forall k :: 0 <= k < |draws| ==> IsNode(draws[k], n)
  }

  /** The elements of a sequence, as a set. */
  function Elems(s: seq<int>): set<int> {
    set x | x in s
  }

  /** The node set `{1, ..., n}`. */
  function Nodes(n: nat): (r: set<int>)
    ensures forall v :: v in r <==> IsNode(v, n)
    ensures |r| == n
  {
    if n == 0 then {} else Nodes(n - 1) + {n}
  }

  /**
    What the constructor always produces: `n + 1` entries, the start node at
    both ends, and before the closing entry `n` pairwise distinct values, all
    of them nodes of `1..n` except possibly the start node.
   */
  predicate ClosedWalk(g: seq<int>, start: int, n: nat) {
    && |g| == n + 1
    && g[0] == start
    && g[n] == start
    && Distinct(g[..n])
    && (forall k :: 1 <= k < n ==> IsNode(g[k], n))
  }

  /** A valid closed tour: a closed walk whose start node is itself a node. */
  predicate IsTour(t: seq<int>, start: int, n: nat) {
    ClosedWalk(t, start, n) && IsNode(start, n)
  }

  // ---------------------------------------------------------------------
  // Counting facts about finite sets of nodes
  // ---------------------------------------------------------------------

  lemma SubsetSize(a: set<int>, b: set<int>)
    requires a <= b
    ensures |a| <= |b|
    ensures |a| == |b| ==> a == b
  {
    assert |b - a| == |b| - |a|;
    if |a| == |b| {
      assert b - a == {};
    }
  }

  /** A sequence has at most as many distinct elements as entries, and exactly as many when it is `Distinct`. */
  lemma {:induction false} ElemsSize(s: seq<int>)
    ensures |Elems(s)| <= |s|
    ensures Distinct(s) ==> |Elems(s)| == |s|
  {
    if |s| > 0 {
      ElemsSize(s[1..]);
      assert Elems(s) == {s[0]} + Elems(s[1..]);
      if Distinct(s) {
        assert Distinct(s[1..]);
        assert s[0] !in s[1..];
      }
    }
  }

  /** The sequence with every occurrence of `x` removed. */
  function Without(s: seq<int>, x: int): (r: seq<int>)
    ensures |r| <= |s|
    ensures x in s ==> |r| < |s|
    ensures forall y :: y in r <==> y in s && y != x
  {
    if |s| == 0 then []
    else if s[0] == x then Without(s[1..], x)
    else [s[0]] + Without(s[1..], x)
  }

  /** Pigeonhole: fewer than `n` entries miss some node of `1..n`. */
  lemma {:induction false} UnusedNode(s: seq<int>, n: nat) returns (v: int)
    requires |s| < n
    ensures IsNode(v, n) && v !in s
    decreases n
  {
    if n !in s {
      v := n;
    } else {
      v := UnusedNode(Without(s, n), n - 1);
    }
  }

  /** Pigeonhole: `n` distinct nodes of `1..n` include every node. */
  lemma CoversAllNodes(s: seq<int>, n: nat)
    requires |s| == n
    requires Distinct(s)
    requires forall k :: 0 <= k < |s| ==> IsNode(s[k], n)
    ensures forall v :: IsNode(v, n) ==> v in s
  {
    ElemsSize(s);
    assert Elems(s) <= Nodes(n);
    SubsetSize(Elems(s), Nodes(n));
    assert forall v :: v in Nodes(n) ==> v in Elems(s);
  }

  // ---------------------------------------------------------------------
  // The inner construction loop
  // ---------------------------------------------------------------------

  /**
    One iteration of the inner construction loop: the candidate is appended
    unless it is already present.
   */
  function Offer(gene: seq<int>, candidate: int): (g: seq<int>)
    ensures |gene| <= |g| <= |gene| + 1
    ensures forall k :: 0 <= k < |gene| ==> g[k] == gene[k]
    ensures candidate in g
    ensures |g| == |gene| <==> candidate in gene
    ensures forall x :: x in g <==> x in gene || x == candidate
    ensures Distinct(gene) ==> Distinct(g)
  {
    if candidate in gene then gene else gene + [candidate]
  }

  /**
    The inner construction loop: offer the draws from position `pos` on
    until the gene holds `n` entries. Each round is the step `Offer`
    describes, written out inline on purpose: calling `Offer` here would
    bring its contract into every unfolding of `Fill` and make the proofs
    about `Fill` far costlier. `FillStep` states that the two agree. The
    shape of the result is stated here; what it contains is stated by the
    lemmas that follow.
   */
  function Fill(n: nat, gene: seq<int>, draws: seq<int>, pos: nat): (r: Result<Drawn>)
    requires 1 <= |gene| <= n
    requires pos <= |draws|
    requires IsDraws(draws, n)
    ensures r.Ok? ==> |r.value.gene| == n
    ensures r.Ok? ==> pos <= r.value.next <= |draws|
    ensures r.Err? ==> r.error == DrawsExhausted
    decreases |draws| - pos
  {
    if |gene| == n then Ok(Drawn(gene, pos))
    else if pos == |draws| then Err(DrawsExhausted)
    else Fill(n, if draws[pos] in gene then gene else gene + [draws[pos]], draws, pos + 1)
  }

  /**
    One round of the inner loop: once the first remaining draw has been
    offered, filling goes on from the next position.
   */
  lemma FillStep(n: nat, gene: seq<int>, offered: seq<int>, draws: seq<int>, pos: nat)
    requires 1 <= |gene| < n
    requires pos < |draws|
    requires IsDraws(draws, n)
    requires offered == Offer(gene, draws[pos])
    ensures 1 <= |offered| <= n
    ensures Fill(n, gene, draws, pos) == Fill(n, offered, draws, pos + 1)
  {
  }

  /** Filling only appends: the entries already in the gene stay in place. */
  lemma {:induction false} FillKeepsPrefix(n: nat, gene: seq<int>, draws: seq<int>, pos: nat)
    requires 1 <= |gene| <= n
    requires pos <= |draws|
    requires IsDraws(draws, n)
    ensures var r := Fill(n, gene, draws, pos);
      r.Ok? ==> forall k :: 0 <= k < |gene| ==> r.value.gene[k] == gene[k]
    decreases |draws| - pos
  {
    if |gene| < n && pos < |draws| {
      var g := Offer(gene, draws[pos]);
      FillStep(n, gene, g, draws, pos);
      FillKeepsPrefix(n, g, draws, pos + 1);
    }
  }

  /** Filling keeps the entries of a gene pairwise distinct. */
  lemma {:induction false} FillKeepsDistinct(n: nat, gene: seq<int>, draws: seq<int>, pos: nat)
    requires 1 <= |gene| <= n
    requires pos <= |draws|
    requires IsDraws(draws, n)
    requires Distinct(gene)
    ensures Fill(n, gene, draws, pos).Ok? ==> Distinct(Fill(n, gene, draws, pos).value.gene)
    decreases |draws| - pos
  {
    if |gene| < n && pos < |draws| {
      FillKeepsDistinct(n, Offer(gene, draws[pos]), draws, pos + 1);
    }
  }

  /** Filling appends only nodes of `1..n`. */
  lemma {:induction false} FillAppendsNodes(n: nat, gene: seq<int>, draws: seq<int>, pos: nat)
    requires 1 <= |gene| <= n
    requires pos <= |draws|
    requires IsDraws(draws, n)
    ensures Fill(n, gene, draws, pos).Ok? ==>
              forall k :: |gene| <= k < n ==> IsNode(Fill(n, gene, draws, pos).value.gene[k], n)
    decreases |draws| - pos
  {
    if |gene| < n && pos < |draws| && Fill(n, gene, draws, pos).Ok? {
      var g := Offer(gene, draws[pos]);
      FillStep(n, gene, g, draws, pos);
      FillAppendsNodes(n, g, draws, pos + 1);
      FillKeepsPrefix(n, g, draws, pos + 1);
      var out := Fill(n, gene, draws, pos).value.gene;
      forall k | |gene| <= k < n
        ensures IsNode(out[k], n)
      {
        if k < |g| {
          assert out[k] == g[k] == draws[pos];
        }
      }
    }
  }

  /**
    A filled gene holds exactly the entries it started with plus the draws it
    consumed: every appended node was drawn, and every consumed draw ends up
    in the gene, appended or already present.
   */
  lemma {:induction false} FillElems(n: nat, gene: seq<int>, draws: seq<int>, pos: nat)
    requires 1 <= |gene| <= n
    requires pos <= |draws|
    requires IsDraws(draws, n)
    ensures var r := Fill(n, gene, draws, pos);
      r.Ok? ==> forall x :: x in r.value.gene <==> x in gene || x in draws[pos..r.value.next]
    decreases |draws| - pos
  {
    if |gene| < n && pos < |draws| {
      var g := Offer(gene, draws[pos]);
      FillStep(n, gene, g, draws, pos);
      FillElems(n, g, draws, pos + 1);
      var r := Fill(n, g, draws, pos + 1);
      if r.Ok? {
        ElemsStep(r.value.gene, g, gene, draws, pos, r.value.next);
      }
    }
  }

  /** One step of `FillElems`: membership through an offered candidate. */
  lemma ElemsStep(out: seq<int>, g: seq<int>, gene: seq<int>, draws: seq<int>, pos: nat, next: nat)
    requires pos < next <= |draws|
    requires forall x :: x in out <==> x in g || x in draws[pos + 1..next]
    requires forall x :: x in g <==> x in gene || x == draws[pos]
    ensures forall x :: x in out <==> x in gene || x in draws[pos..next]
  {
    assert draws[pos..next] == [draws[pos]] + draws[pos + 1..next];
    forall x
      ensures x in out <==> x in gene || x in draws[pos..next]
    {
      assert x in draws[pos..next] <==> x == draws[pos] || x in draws[pos + 1..next];
    }
  }

  /**
    Completion: when every node missing from the gene occurs among the
    remaining draws, the draws suffice to fill the gene.
   */
  lemma {:induction false} FillCompletes(n: nat, gene: seq<int>, draws: seq<int>, pos: nat)
    requires 1 <= |gene| <= n
    requires pos <= |draws|
    requires IsDraws(draws, n)
    requires Distinct(gene)
    requires forall v :: IsNode(v, n) && v !in gene ==> v in draws[pos..]
    ensures Fill(n, gene, draws, pos).Ok?
    decreases |draws| - pos
  {
    if |gene| < n {
      var v := UnusedNode(gene, n);
      assert v in draws[pos..];
      var g := Offer(gene, draws[pos]);
      assert draws[pos..] == [draws[pos]] + draws[pos + 1..];
      forall w | IsNode(w, n) && w !in g
        ensures w in draws[pos + 1..]
      {
        assert w in draws[pos..] && w != draws[pos];
      }
      FillCompletes(n, g, draws, pos + 1);
    }
  }

  // ---------------------------------------------------------------------
  // One gene and the gene set
  // ---------------------------------------------------------------------

  /**
    One gene, as built in one iteration of the outer construction loop: the
    start node, the inner loop over the draws from position `pos` on, and
    the start node once more.
   */
  function NewGene(start: int, n: nat, draws: seq<int>, pos: nat): (r: Result<Drawn>)
    requires pos <= |draws|
    requires IsDraws(draws, n)
    ensures n == 0 <==> r == Err(EmptyRange)
    ensures r.Err? ==> r == Err(EmptyRange) || r == Err(DrawsExhausted)
    ensures r.Ok? ==> ClosedWalk(r.value.gene, start, n)
    ensures r.Ok? && IsNode(start, n) ==> IsTour(r.value.gene, start, n)
    ensures r.Ok? ==> pos <= r.value.next <= |draws|
  {
    if n == 0 then Err(EmptyRange)
    else
      var r := Fill(n, [start], draws, pos);
      if r.Err? then Err(r.error)
      else
        FillKeepsPrefix(n, [start], draws, pos);
        FillKeepsDistinct(n, [start], draws, pos);
        FillAppendsNodes(n, [start], draws, pos);
        var g := r.value.gene + [start];
        assert g[..n] == r.value.gene;
        assert r.value.gene[0] == [start][0] == start;
        assert g[0] == start;
        assert g[n] == start;
        Ok(Drawn(g, r.value.next))
  }

  /**
    A gene is completed as soon as the remaining draws have covered every
    node other than the start node.
   */
  lemma NewGeneCompletes(start: int, n: nat, draws: seq<int>, pos: nat)
    requires n >= 1
    requires pos <= |draws|
    requires IsDraws(draws, n)
    requires forall v :: IsNode(v, n) && v != start ==> v in draws[pos..]
    ensures NewGene(start, n, draws, pos).Ok?
  {
    FillCompletes(n, [start], draws, pos);
  }

  /**
    Conversely, with a start node in range a completed gene has consumed a
    draw of every other node: the covering condition of `NewGeneCompletes`
    is necessary as well as sufficient.
   */
  lemma NewGeneNeedsEveryNode(start: int, n: nat, draws: seq<int>, pos: nat)
    requires pos <= |draws|
    requires IsDraws(draws, n)
    requires IsNode(start, n)
    requires NewGene(start, n, draws, pos).Ok?
    ensures var next := NewGene(start, n, draws, pos).value.next;
      forall v :: IsNode(v, n) && v != start ==> v in draws[pos..next]
  {
    var d := NewGene(start, n, draws, pos).value;
    var f := Fill(n, [start], draws, pos).value;
    FillElems(n, [start], draws, pos);
    assert d.gene[..n] == f.gene;
    TourVisitsEveryNode(d.gene, start, n);
  }

  /** Prefixes genes built earlier to a later result. */
  function After(genes: seq<seq<int>>, r: Result<Built>): Result<Built> {
    if r.Ok? then Ok(Built(genes + r.value.genes, r.value.next)) else r
  }

  /** One round of the outer loop: a gene is built, then the remaining ones. */
  lemma NewGenesStep(start: int, n: nat, count: nat, draws: seq<int>, pos: nat)
    requires 0 < count
    requires pos <= |draws|
    requires IsDraws(draws, n)
    ensures var g := NewGene(start, n, draws, pos);
      g.Err? ==> NewGenes(start, n, count, draws, pos) == Err(g.error)
    ensures var g := NewGene(start, n, draws, pos);
      g.Ok? ==>
        NewGenes(start, n, count, draws, pos) == After([g.value.gene], NewGenes(start, n, count - 1, draws, g.value.next))
  {
  }

  /** Prefixing no genes changes nothing. */
  lemma AfterNothing(r: Result<Built>)
    ensures After([], r) == r
  {
    if r.Ok? {
      assert [] + r.value.genes == r.value.genes;
    }
  }

  /** Prefixing twice is prefixing the concatenation. */
  lemma AfterAfter(a: seq<seq<int>>, b: seq<seq<int>>, r: Result<Built>)
    ensures After(a, After(b, r)) == After(a + b, r)
  {
    if r.Ok? {
      assert a + (b + r.value.genes) == (a + b) + r.value.genes;
    }
  }

  /** Prefixing onto an empty build leaves just the prefix. */
  lemma AfterAll(genes: seq<seq<int>>, pos: nat)
    ensures After(genes, Ok(Built([], pos))) == Ok(Built(genes, pos))
  {
    assert genes + [] == genes;
  }

  /**
    The outer construction loop once `count` genes remain to be built:
    `count` more genes, consuming the draws in order from position `pos`.
   */
  function NewGenes(start: int, n: nat, count: nat, draws: seq<int>, pos: nat): (r: Result<Built>)
    requires pos <= |draws|
    requires IsDraws(draws, n)
    ensures r.Ok? ==> |r.value.genes| == count
    ensures r.Ok? ==> forall i :: 0 <= i < count ==> ClosedWalk(r.value.genes[i], start, n)
    ensures r.Ok? && IsNode(start, n) ==>
              forall i :: 0 <= i < count ==> IsTour(r.value.genes[i], start, n)
    ensures count == 0 ==> r == Ok(Built([], pos))
    ensures count > 0 && n == 0 ==> r == Err(EmptyRange)
    ensures r.Err? && n != 0 ==> r.error == DrawsExhausted
    ensures r.Ok? ==> pos <= r.value.next <= |draws|
    decreases count
  {
    if count == 0 then Ok(Built([], pos))
    else
      var g := NewGene(start, n, draws, pos);
      if g.Err? then Err(g.error)
      else After([g.value.gene], NewGenes(start, n, count - 1, draws, g.value.next))
  }

  /**
    Building `a + b` genes is building `a` genes and then `b` more from the
    first draw the first `a` left unused; a failure among the first `a`
    ends the whole build.
   */
  lemma {:induction false} NewGenesCompose(start: int, n: nat, a: nat, b: nat, draws: seq<int>, pos: nat)
    requires pos <= |draws|
    requires IsDraws(draws, n)
    ensures var first := NewGenes(start, n, a, draws, pos);
      NewGenes(start, n, a + b, draws, pos) ==
        if first.Err? then first
        else After(first.value.genes, NewGenes(start, n, b, draws, first.value.next))
    decreases a
  {
    if a == 0 {
      AfterNothing(NewGenes(start, n, b, draws, pos));
    } else {
      NewGenesStep(start, n, a + b, draws, pos);
      NewGenesStep(start, n, a, draws, pos);
      var whole := NewGenes(start, n, a + b, draws, pos);
      var first := NewGenes(start, n, a, draws, pos);
      var g := NewGene(start, n, draws, pos);
      if g.Ok? {
        var rest := NewGenes(start, n, a - 1, draws, g.value.next);
        NewGenesCompose(start, n, a - 1, b, draws, g.value.next);
        assert a - 1 + b == a + b - 1;
        var mid := NewGenes(start, n, a - 1 + b, draws, g.value.next);
        assert whole == After([g.value.gene], mid);
        assert first == After([g.value.gene], rest);
        if rest.Ok? {
          var tail := NewGenes(start, n, b, draws, rest.value.next);
          assert mid == After(rest.value.genes, tail);
          AfterAfter([g.value.gene], rest.value.genes, tail);
        } else {
          assert mid == rest;
        }
      }
    }
  }

  /**
    The gene-set constructor: `num_gene` may be any integer; a non-positive
    value yields the empty gene set without drawing anything, even for an
    empty matrix.
   */
  function GeneSet(start: int, n: nat, numGene: int, draws: seq<int>): (r: Result<Built>)
    requires IsDraws(draws, n)
    ensures numGene <= 0 ==> r == Ok(Built([], 0))
    ensures r.Ok? ==> |r.value.genes| == if numGene < 0 then 0 else numGene
    ensures r.Ok? ==> forall i :: 0 <= i < |r.value.genes| ==> ClosedWalk(r.value.genes[i], start, n)
    ensures r.Ok? && IsNode(start, n) ==>
              forall i :: 0 <= i < |r.value.genes| ==> IsTour(r.value.genes[i], start, n)
    ensures numGene > 0 && n == 0 ==> r == Err(EmptyRange)
    ensures r.Err? ==> r.error == (if n == 0 then EmptyRange else DrawsExhausted)
  {
    NewGenes(start, n, if numGene < 0 then 0 else numGene, draws, 0)
  }

  // ---------------------------------------------------------------------
  // What a finished gene contains
  // ---------------------------------------------------------------------

  /**
    A tour visits every node: the first `n` entries are a permutation of
    `1..n`, so every node other than the start occurs in the interior, and
    (being distinct) exactly once, while the start node does not occur there.
   */
  lemma TourVisitsEveryNode(t: seq<int>, start: int, n: nat)
    requires IsTour(t, start, n)
    ensures forall v :: IsNode(v, n) ==> v in t[..n]
    ensures forall v :: IsNode(v, n) && v != start ==> v in t[1..n]
    ensures start !in t[1..n]
    ensures forall i, j :: 1 <= i < j < n ==> t[i] != t[j]
  {
    var body := t[..n];
    CoversAllNodes(body, n);
    assert body == [start] + t[1..n];
  }

  /** The interior of a closed walk, `g[1..n]`, holds pairwise distinct entries. */
  lemma InteriorDistinct(g: seq<int>, start: int, n: nat)
    requires ClosedWalk(g, start, n)
    requires n >= 1
    ensures Distinct(g[1..n])
  {
    var inner := g[1..n];
    forall i, j | 0 <= i < j < |inner|
      ensures inner[i] != inner[j]
    {
      assert inner[i] == g[..n][i + 1] && inner[j] == g[..n][j + 1];
    }
  }

  /** When the start is not a node, the nodes a closed walk visits are its interior entries. */
  lemma WalkNodesAreInterior(g: seq<int>, start: int, n: nat)
    requires ClosedWalk(g, start, n)
    requires n >= 1
    requires !IsNode(start, n)
    ensures Elems(g) * Nodes(n) == Elems(g[1..n])
  {
    var inner := g[1..n];
    forall x | x in Elems(g) * Nodes(n)
      ensures x in Elems(inner)
    {
      var k :| 0 <= k < |g| && g[k] == x;
      assert 0 < k < n;
      assert inner[k - 1] == x;
    }
    forall x | x in Elems(inner)
      ensures x in Elems(g) * Nodes(n)
    {
      var k :| 0 <= k < |inner| && inner[k] == x;
      assert g[k + 1] == x;
    }
  }

  /**
    With a start node outside `1..n` the constructor still terminates, but
    the finished gene holds only `n - 1` of the `n` nodes.
   */
  lemma WalkMissesNode(g: seq<int>, start: int, n: nat)
    requires ClosedWalk(g, start, n)
    requires n >= 1
    requires !IsNode(start, n)
    ensures |Elems(g) * Nodes(n)| == n - 1
    ensures exists v :: IsNode(v, n) && v !in g
  {
    var inner := g[1..n];
    InteriorDistinct(g, start, n);
    ElemsSize(inner);
    WalkNodesAreInterior(g, start, n);
    var v := UnusedNode(inner, n);
    assert v !in g by {
      assert v !in Elems(g) * Nodes(n);
    }
  }

  // ---------------------------------------------------------------------
  // The construction loops as methods
  // ---------------------------------------------------------------------

  /**
    The inner loop of the constructor: draw candidates from position `pos`
    on and append each one the gene lacks, until the gene holds `n` entries;
    the result is the one `Fill` describes.
   */
  method FillLoop(n: nat, gene0: seq<int>, draws: seq<int>, pos: nat) returns (r: Result<Drawn>)
    requires 1 <= |gene0| <= n
    requires pos <= |draws|
    requires IsDraws(draws, n)
    ensures r == Fill(n, gene0, draws, pos)
    ensures r.Ok? ==> |r.value.gene| == n
  {
    ghost var filled := Fill(n, gene0, draws, pos);
    var gene := gene0;
    var p := pos;
    while |gene| != n
      invariant 1 <= |gene| <= n
      invariant pos <= p <= |draws|
      invariant filled == Fill(n, gene, draws, p)
      decreases |draws| - p
    {
      if p == |draws| {
        assert Fill(n, gene, draws, p) == Err(DrawsExhausted);
        return Err(DrawsExhausted);
      }
      var candidate := draws[p];
      var next := Offer(gene, candidate);
      FillStep(n, gene, next, draws, p);
      gene := next;
      p := p + 1;
    }
    assert Fill(n, gene, draws, p) == Ok(Drawn(gene, p));
    return Ok(Drawn(gene, p));
  }

  /**
    One gene of the constructor: start at the start node, fill, and close
    the tour by appending the start node again; the result is the one
    `NewGene` describes.
   */
  method BuildGene(start: int, n: nat, draws: seq<int>, pos: nat) returns (r: Result<Drawn>)
    requires pos <= |draws|
    requires IsDraws(draws, n)
    ensures r == NewGene(start, n, draws, pos)
    ensures r.Ok? ==> ClosedWalk(r.value.gene, start, n)
  {
    if n == 0 {
      return Err(EmptyRange);
    }
    var filled := FillLoop(n, [start], draws, pos);
    if filled.Err? {
      return Err(filled.error);
    }
    var gene := filled.value.gene + [start];
    return Ok(Drawn(gene, filled.value.next));
  }

  /**
    The outer loop of the constructor; the result is the one `GeneSet`
    describes.
   */
  method BuildGeneSet(start: int, n: nat, numGene: int, draws: seq<int>) returns (r: Result<Built>)
    requires IsDraws(draws, n)
    ensures r == GeneSet(start, n, numGene, draws)
    ensures r.Ok? ==> |r.value.genes| == if numGene < 0 then 0 else numGene
    ensures r.Ok? ==> forall i :: 0 <= i < |r.value.genes| ==> ClosedWalk(r.value.genes[i], start, n)
  {
    var geneSet: seq<seq<int>> := [];
    var pos: nat := 0;
    ghost var remaining: nat := if numGene < 0 then 0 else numGene;
    ghost var built := NewGenes(start, n, remaining, draws, 0);
    AfterNothing(built);
    while |geneSet| < numGene
      invariant |geneSet| + remaining == if numGene < 0 then 0 else numGene
      invariant pos <= |draws|
      invariant built == After(geneSet, NewGenes(start, n, remaining, draws, pos))
      decreases remaining
    {
      var g := BuildGene(start, n, draws, pos);
      NewGenesStep(start, n, remaining, draws, pos);
      if g.Err? {
        return Err(g.error);
      }
      AfterAfter(geneSet, [g.value.gene], NewGenes(start, n, remaining - 1, draws, g.value.next));
      geneSet := geneSet + [g.value.gene];
      pos := g.value.next;
      remaining := remaining - 1;
    }
    AfterAll(geneSet, pos);
    return Ok(Built(geneSet, pos));
  }
}
